=== FILE: README.md ===
# boundedLevenshtein in Dafny

A model of `boundedLevenshtein(a, b, maxDistance)` from index.js. The function
returns the unit-cost Levenshtein distance between two strings: insertions,
deletions and substitutions of single UTF-16 code units each cost one. Once
the distance is known to exceed `maxDistance`, it returns `Infinity` instead.

The function adds four shortcuts to the textbook two-row dynamic programme:

- a pre-filter on the length difference;
- an argument swap, so that `a` is the shorter string;
- trimming the longest common prefix, then the longest common suffix of what
  remains, by index arithmetic;
- an early exit after any row whose minimum over columns 1..bLen exceeds the
  bound.

The project has three modules:

- `EditDistance` (edit_distance.dfy) defines the reference distance `Lev`.
  It recurses on the last code unit of each side, so `Lev(a[..i], b[..j])`
  is cell (i, j) of the table. The module proves the facts the shortcuts rely
  on:
  - the distance lies between the length difference and the longer length;
  - it is symmetric;
  - a shared prefix or suffix contributes nothing;
  - row `i` of the table follows from row `i - 1`;
  - the final cell is at least some cell of every completed row, so a row
    that lies wholly above the bound decides the result;
  - the diagonal cell (i, i) is at most `i`.
- `BoundedLevenshtein` (bounded_levenshtein.dfy) holds the function itself:
  - the result type `Distance = Finite(value) | Exceeded`, where `Exceeded`
    stands for `Infinity`;
  - the two trimming scans and the array loops for `bChars` and `buffer`;
  - the nested row loops with their early exit;
  - two top-level methods. `BoundedLevenshteinAsWritten` follows index.js
    line by line. `BoundedLevenshtein` adds the comparison index.js:92 leaves
    out (see Findings).
  - `AsWritten` is a ghost function that states, case by case, what the code
    as written returns.
- `TestVectors` (test_vectors.dfy) restates the assertions of test.js as
  lemmas. Each one says what the code as written and the corrected function
  return for that pair. The bound is 12 throughout.

Code units are a type parameter `T`. The function only ever compares two code
units for equality, so nothing else about them matters. The test vectors use
Dafny strings. Each test string has only characters from the Basic
Multilingual Plane, so each character is one UTF-16 code unit.

index.js trims the common prefix before the common suffix (index.js:30-43),
puts no upper cap on `maxDistance`, fills every column of every row
(index.js:71), and returns only `Infinity` as its sentinel; the model does the
same.

## Model

| member | source | states |
|---|---|---|
| `EditDistance.LevBounds` | index.js:19-21 | The distance is at least the difference of the lengths and at most the longer length, which is what makes the pre-filter sound. |
| `EditDistance.LevSymmetric` | index.js:23-28 | Distance does not depend on argument order, so swapping `a` and `b` keeps it. |
| `EditDistance.LevSelf` | test.js:11 | A string is at distance 0 from itself. |
| `EditDistance.StripFirst` | index.js:33 | A shared first code unit can be dropped from both sides without changing the distance. |
| `EditDistance.StripCommonPrefix` | index.js:30-35 | `Lev(p + x, p + y) == Lev(x, y)` for every shared prefix `p`. |
| `EditDistance.StripLast` | index.js:40 | A shared last code unit can be dropped from both sides without changing the distance. |
| `EditDistance.StripCommonSuffix` | index.js:37-43 | Cutting a shared suffix of any length from both sides keeps the distance. |
| `EditDistance.StripCommonParts` | index.js:30-43 | `Lev(p + x + s, p + y + s) == Lev(x, y)`: a shared prefix and a shared suffix together contribute nothing. |
| `EditDistance.LevRowCell` | index.js:56-83 | Cell `k` of the row that `LevRow` builds is `Lev(a, b[..k])`, the value `buffer[k]` must hold after the row for `a`. |
| `EditDistance.LevRowBorders` | index.js:56-68 | Row 0 is `0, 1, …, bLen` (the buffer initialisation); column 0 of row `i` is `i` (`buffer[0] = i`); the last cell of a row is at most `bLen` when `a` is no longer than `b`. |
| `EditDistance.LevRowStep` | index.js:71-83 | Every cell `j + 1` of row `i` is the cheapest of the cell above plus one, the cell to the left plus one, and the diagonal cell plus the substitution cost of `a[i - 1]` and `b[j]`. |
| `EditDistance.LevRowFromPrevious` | index.js:68-83 | A row that starts at `|p| + 1` and follows the recurrence from the row of `p` is the row of `p + [c]`, and no other sequence is. |
| `EditDistance.LevRowLast` | index.js:92 | The last cell of the row for the whole of `a` is the distance. |
| `EditDistance.NextRowDominated` | index.js:85-89 | Every cell of the next row is at least some cell of the current row. |
| `EditDistance.RowExceedsPropagates` | index.js:85-89 | Once every cell of row `i` exceeds `m`, so does every cell of row `i + 1`: the least value of a row never decreases from one row to the next. |
| `EditDistance.LastCellDominated` | index.js:85-89 | The final distance is at least some cell of every completed row. |
| `EditDistance.ExceededRowBoundsDistance` | index.js:85-89 | A completed row whose cells all exceed `m` proves the distance exceeds `m`, which makes the early `Infinity` sound. |
| `EditDistance.DiagonalAtMost` | index.js:63-68 | The diagonal cell (i, i) is at most `i`, so the row minimum can skip column 0 and start at `bLen`. |
| `BoundedLevenshtein.CommonPrefixLength` | index.js:31-35 | The number of leading code units the `start` loop skips: it never exceeds the length of either string (maximality is in `CommonPrefixLengthMaximal`). |
| `BoundedLevenshtein.CommonSuffixLength` | index.js:40-43 | The number of trailing code units the suffix loop cuts, scanning only while the shorter string has units left: it never exceeds the shorter length (maximality is in `CommonSuffixLengthMaximal`). |
| `BoundedLevenshtein.CommonPrefixLengthMaximal` | index.js:31-35 | The computed prefix length is a common prefix of both strings, and it cannot be extended: the next code units differ or one string ends. |
| `BoundedLevenshtein.CommonSuffixLengthMaximal` | index.js:40-43 | The computed suffix length is a common suffix, and it cannot be extended while the shorter string has code units left. |
| `BoundedLevenshtein.Trim` | index.js:30-43 | After trimming, the first string is still no longer than the second, and the length difference is unchanged. |
| `BoundedLevenshtein.CutSuffix` | index.js:40-43 | Cutting the common suffix keeps the first string no longer than the second, with the same length difference. |
| `BoundedLevenshtein.DropCommonPrefix` | index.js:30-35 | Cutting a shared prefix of length `p` from both strings keeps the distance. |
| `BoundedLevenshtein.DropCommonSuffix` | index.js:37-43 | Cutting the longest common suffix keeps the distance. |
| `BoundedLevenshtein.TrimPreservesDistance` | index.js:30-43 | The trimmed pair has the same distance as the original pair. |
| `BoundedLevenshtein.CommonPrefix` | index.js:31-35 | The `start` loop stops exactly at the length of the longest common prefix. |
| `BoundedLevenshtein.CommonSuffix` | index.js:37-43 | The suffix loop leaves `aLen` and `bLen` as the lengths left once the longest common suffix of what follows the prefix is cut. |
| `BoundedLevenshtein.CodeUnits` | index.js:50-54 | `bChars` holds exactly the `bLen` code units of `b` from `start` on. |
| `BoundedLevenshtein.FirstRow` | index.js:56-60 | `buffer` starts as row 0 of the table: `buffer[j] == j` for `0 <= j <= bLen`. |
| `BoundedLevenshtein.NextRow` | index.js:63-83 | One pass of the inner loop overwrites the previous row in `buffer` with the next one, with `above` holding the previous row's value at column `j`. It returns `rowMinimum` as index.js:63 and 77-79 compute it: at most `bLen` and at most every cell over columns 1..bLen, and equal to `bLen` or to one of those cells, so it is the least of `bLen` and those cells. |
| `BoundedLevenshtein.TableRow` | index.js:62-83 | Pass `i` turns `buffer` from row `i - 1` of the table for the trimmed pair into row `i`, and bounds `rowMinimum` by that row. |
| `BoundedLevenshtein.RowMinimumDecides` | index.js:85-89 | `rowMinimum > maxDistance` holds exactly when every cell of row `i`, column 0 included, exceeds the bound. |
| `BoundedLevenshtein.ScanStops` | index.js:85-89 | A row wholly over the bound makes the row-by-row programme return `Exceeded`. |
| `BoundedLevenshtein.ScanCompletes` | index.js:92 | When no row exceeds the bound, the programme's result is the last cell of the last row. |
| `BoundedLevenshtein.DistanceRows` | index.js:50-92 | The outer loop keeps `buffer` equal to row `i - 1` of the table for the trimmed pair, and stops with `Exceeded` at the first row wholly over the bound, or returns the final cell. |
| `BoundedLevenshtein.TrimWindow` | index.js:37-43 | The window `start`, `aLen`, `bLen` left by the scans is the trimmed pair, with `start + aLen <= a.length` and `start + bLen <= b.length`. |
| `BoundedLevenshtein.RowScan` | index.js:62-92 | The result of the row loop on the trimmed pair: `Exceeded` when some completed row lies wholly above the bound (the early `return Infinity`), otherwise the last cell of the last row, unchecked. `ScanStops` and `ScanCompletes` connect it to the loop, and `DistanceRows` is proved to return it. |
| `BoundedLevenshtein.AsWritten` | index.js:12-93 | What the code returns, case by case: `Exceeded` after the pre-filter; otherwise, on the pair trimmed with the shorter string first, `bLen` or `Exceeded` when the trimmed `a` is empty, and `RowScan` otherwise. `BoundedLevenshteinAsWritten` is proved to return it, and `AsWrittenSound` relates it to `Lev`. |
| `BoundedLevenshtein.AsWrittenSound` | index.js:3-8 | Whatever the code as written returns: `Infinity` only when the distance exceeds the bound; a finite result is always the exact distance; a distance within the bound is always returned. |
| `BoundedLevenshtein.BoundedLevenshteinAsWritten` | index.js:12-93 | The method following index.js returns `AsWritten`: `Exceeded` only for a distance over the bound, otherwise the exact distance, and every distance within the bound. |
| `BoundedLevenshtein.BoundedLevenshtein` | index.js:3-8 | The result is `Finite(Lev(a, b))` when the distance is at most `maxDistance`, and `Exceeded` otherwise. |
| `BoundedLevenshtein.PreFilterSound` | index.js:19-21 | A length difference over the bound already means `Exceeded`, whatever the contents. |
| `BoundedLevenshtein.EmptyTrimWithinBound` | index.js:45-48 | When the trimmed `a` is empty the distance is `bLen`. After the pre-filter, `bLen` is within the bound, so the `Infinity` arm of the fast exit is never taken. |
| `BoundedLevenshtein.SwapUnobservable` | index.js:23-28 | Swapping the arguments cannot change the promised result. |
| `BoundedLevenshtein.AsWrittenSwapWhenLengthsDiffer` | index.js:23-28 | When the lengths differ, the code as written gives the same result in either argument order. |
| `BoundedLevenshtein.AsWrittenOvershoots` | index.js:92 | For distinct code units `x`, `y` and bound 1, the code returns 2 for `[x, y]` against `[y, x]`, while the promised result is `Exceeded`. |
| `BoundedLevenshtein.AsWrittenSwapObservable` | index.js:23-28 | For distinct `x`, `y`, `z` and bound 1, the code returns `Exceeded` for (`[x, y]`, `[z, x]`) but 2 for the swapped arguments. |
| `BoundedLevenshtein.UntrimmedPairScans` | index.js:30-48 | Two two-unit strings that differ at both ends are not trimmed, so the row scan decides the result. |
| `BoundedLevenshtein.NoRowOfTwoExceeds` | index.js:85-89 | A two-unit first string whose two rows each hold a cell within the bound never takes the early exit. |
| `TestVectors.WithinBound` | test.js:10-26 | For a pair whose distance is within 12, both the code and the corrected function return that distance. |
| `TestVectors.Equal` | test.js:11 | `equal` against itself gives 0. |
| `TestVectors.OneEdit` | test.js:12-20 | Two strings that share a prefix and a suffix and differ by one insertion, deletion or substitution between them give 1. |
| `TestVectors.EditsAtEnd` | test.js:12-14 | One code unit added, changed or removed at the end gives 1. |
| `TestVectors.EditsAtStart` | test.js:15-17 | One code unit added, changed or removed at the start gives 1. |
| `TestVectors.EditsInMiddle` | test.js:18-20 | One code unit added, changed or removed in the middle gives 1. |
| `TestVectors.AgainstEmpty` | test.js:21-24 | `right empty` against the empty string gives 11, and the empty string against `left empty` gives 10. |
| `TestVectors.TooFarApartInLength` | test.js:22 | Lengths 10 and 36 are further apart than 12, so both versions give `Exceeded`. |
| `TestVectors.FourRows` | test.js:25 | A four-by-four table whose rows each follow from the one before holds the distance in its last cell. |
| `TestVectors.TwoSubstitutions` | test.js:25 | Four-unit strings that agree only in their middle two code units, as `entś` and `ėnts` do, are exactly two edits apart. |
| `TestVectors.Accents` | test.js:25 | `accentś` against `accėnts` gives 2: code units are compared one by one. |

## Left out

- JavaScript specifics are not modelled: `charCodeAt` and UTF-16 decoding, `Math.abs` and `Math.min`, the growth of arrays by `push`, and `module.exports`. Code units are a type parameter compared only for equality. `maxDistance` is a `nat`, and `Infinity` is the `Exceeded` constructor.
- A negative, fractional or non-numeric `maxDistance` is not modelled, because the parameter is a `nat`.
- The test harness (ava) is not modelled; only its assertions are stated, as lemmas.
- The assertion of test.js:23 is not proved: the pair of 39- and 41-unit strings needs a 40-row table. The other assertions of test.js are proved.
- No complexity or performance claims are modelled.

## Findings

| source | as written | input that shows it | evidently intended | confidence | as-written member | corrected member |
|---|---|---|---|---|---|---|
| index.js:92 | returns `buffer[bLen]` without comparing it to `maxDistance` | `boundedLevenshtein('ab', 'ba', 1)` returns 2 | `Infinity`, since the distance 2 exceeds the bound 1 (index.js:7) | high; not executed | `BoundedLevenshtein.AsWrittenOvershoots` | `BoundedLevenshtein.BoundedLevenshtein` |
| index.js:24-28, 92 | the unchecked final cell makes argument order observable when the lengths are equal, since no swap takes place | `('ab', 'ca', 1)` returns `Infinity` but `('ca', 'ab', 1)` returns 2 | the same result either way round | high; not executed | `BoundedLevenshtein.AsWrittenSwapObservable` | `BoundedLevenshtein.SwapUnobservable` |

=== FILE: bounded_levenshtein.dfy ===
/**
  `boundedLevenshtein(a, b, maxDistance)`: the Levenshtein distance between
  two strings of UTF-16 code units, or "too far" once it is known to exceed
  `maxDistance`.

  The function layers four shortcuts on the two-row dynamic programme: a
  length-difference pre-filter, an argument swap so that the first string is
  the shorter, trimming of the common prefix and then of the common suffix by
  index arithmetic, and an early exit when a whole row exceeds the bound.
 */
module BoundedLevenshtein {
  import opened EditDistance

  /** The result: a distance, or `Exceeded` where JavaScript returns `Infinity`. */
  datatype Distance = Finite(value: nat) | Exceeded

  /** The promised result for true distance `d` and bound `m`. */
  function Bounded(d: nat, m: nat): (r: Distance) {
    if d <= m then Finite(d) else Exceeded
  }

  /** Length of the longest common prefix of `a` and `b`. */
  function CommonPrefixLength<T(==)>(a: seq<T>, b: seq<T>): (n: nat)
    ensures n <= |a| && n <= |b|
  {
    if |a| == 0 || |b| == 0 || a[0] != b[0] then 0
    else 1 + CommonPrefixLength(a[1..], b[1..])
  }

  /** `CommonPrefixLength` is the length of a common prefix that cannot be extended. */
  lemma {:induction false} CommonPrefixLengthMaximal<T>(a: seq<T>, b: seq<T>)
    ensures a[..CommonPrefixLength(a, b)] == b[..CommonPrefixLength(a, b)]
    ensures var n := CommonPrefixLength(a, b);
            n < |a| && n < |b| ==> a[n] != b[n]
  {
    if |a| > 0 && |b| > 0 && a[0] == b[0] {
      var n := CommonPrefixLength(a[1..], b[1..]);
      CommonPrefixLengthMaximal(a[1..], b[1..]);
      assert a[..n + 1] == [a[0]] + a[1..][..n];
      assert b[..n + 1] == [b[0]] + b[1..][..n];
    }
  }

  /**
    Length of the longest common suffix of `a` and `b`, where `a` is the
    shorter one (only the length of `a` bounds the scan).
   */
  function CommonSuffixLength<T(==)>(a: seq<T>, b: seq<T>): (n: nat)
    requires |a| <= |b|
    ensures n <= |a|
    decreases |a|
  {
    if |a| == 0 || a[|a| - 1] != b[|b| - 1] then 0
    else 1 + CommonSuffixLength(a[..|a| - 1], b[..|b| - 1])
  }

  /** `CommonSuffixLength` is the length of a common suffix that cannot be extended. */
  lemma {:induction false} CommonSuffixLengthMaximal<T>(a: seq<T>, b: seq<T>, n: nat)
    requires |a| <= |b| && n == CommonSuffixLength(a, b)
    ensures a[|a| - n..] == b[|b| - n..]
    ensures n < |a| ==> a[|a| - n - 1] != b[|b| - n - 1]
    decreases |a|
  {
    if n == 0 {
      assert a[|a|..] == [] == b[|b|..];
    } else {
      var a', b' := a[..|a| - 1], b[..|b| - 1];
      CommonSuffixLengthMaximal(a', b', n - 1);
      SuffixGrows(a, b, n);
    }
  }

  /** Sequence bookkeeping for one step of `CommonSuffixLengthMaximal`. */
  lemma SuffixGrows<T>(a: seq<T>, b: seq<T>, n: nat)
    requires 0 < n <= |a| <= |b| && a[|a| - 1] == b[|b| - 1]
    requires a[..|a| - 1][|a| - n..] == b[..|b| - 1][|b| - n..]
    ensures a[|a| - n..] == b[|b| - n..]
    ensures n < |a| ==> a[..|a| - 1][|a| - n - 1] == a[|a| - n - 1]
    ensures n < |a| ==> b[..|b| - 1][|b| - n - 1] == b[|b| - n - 1]
  {
    assert a[|a| - n..] == a[..|a| - 1][|a| - n..] + [a[|a| - 1]];
    assert b[|b| - n..] == b[..|b| - 1][|b| - n..] + [b[|b| - 1]];
  }

  /**
    The pair left once the common prefix, and then the common suffix of what
    remains, are cut from `a` and `b` (with `a` the shorter).
   */
  function Trim<T(==)>(a: seq<T>, b: seq<T>): (r: (seq<T>, seq<T>))
    requires |a| <= |b|
    ensures |r.0| <= |r.1| && |r.1| - |r.0| == |b| - |a|
  {
    var p := CommonPrefixLength(a, b);
    CutSuffix(a[p..], b[p..])
  }

  /** The pair left once the common suffix is cut from `a` and `b`. */
  function CutSuffix<T(==)>(a: seq<T>, b: seq<T>): (r: (seq<T>, seq<T>))
    requires |a| <= |b|
    ensures |r.0| <= |r.1| && |r.1| - |r.0| == |b| - |a|
  {
    var s := CommonSuffixLength(a, b);
    (a[..|a| - s], b[..|b| - s])
  }

  /** Cutting a shared prefix of length `p` keeps the distance. */
  lemma DropCommonPrefix<T>(a: seq<T>, b: seq<T>, p: nat)
    requires p <= |a| && p <= |b| && a[..p] == b[..p]
    ensures Lev(a[p..], b[p..]) == Lev(a, b)
  {
    assert a == a[..p] + a[p..];
    assert b == b[..p] + b[p..];
    StripCommonPrefix(a[..p], a[p..], b[p..]);
  }

  /** Trimming the common prefix and then the common suffix keeps the distance. */
  lemma TrimPreservesDistance<T>(a: seq<T>, b: seq<T>)
    requires |a| <= |b|
    ensures Lev(Trim(a, b).0, Trim(a, b).1) == Lev(a, b)
  {
    var p := CommonPrefixLength(a, b);
    SharedPrefix(a, b, p);
    DropCommonPrefix(a, b, p);
    DropCommonSuffix(a[p..], b[p..]);
  }

  /** Cutting the longest common suffix keeps the distance. */
  lemma DropCommonSuffix<T>(a: seq<T>, b: seq<T>)
    requires |a| <= |b|
    ensures Lev(CutSuffix(a, b).0, CutSuffix(a, b).1) == Lev(a, b)
  {
    var s := CommonSuffixLength(a, b);
    CommonSuffixLengthMaximal(a, b, s);
    StripCommonSuffix(a, b, s);
  }

  lemma SharedPrefix<T>(a: seq<T>, b: seq<T>, p: nat)
    requires p == CommonPrefixLength(a, b)
    ensures p <= |a| && p <= |b| && a[..p] == b[..p]
  {
    CommonPrefixLengthMaximal(a, b);
  }

  /** Some completed row of the table for `a` and `b` lies wholly above `m`. */
  ghost predicate SomeRowExceeds<T>(a: seq<T>, b: seq<T>, m: nat) {
    exists i :: 1 <= i <= |a| && RowExceeds(a, b, i, m)
  }

  /** What the row-by-row programme yields on the trimmed pair. */
  ghost function RowScan<T>(a: seq<T>, b: seq<T>, m: nat): (r: Distance) {
    if SomeRowExceeds(a, b, m) then Exceeded else Finite(Lev(a, b))
  }

  /** The function's result as its code computes it. */
  ghost function AsWritten<T>(a: seq<T>, b: seq<T>, m: nat): (r: Distance) {
    if Gap(|a|, |b|) > m then Exceeded
    else
      var t := if |a| > |b| then Trim(b, a) else Trim(a, b);
      if |t.0| == 0 then (if |t.1| > m then Exceeded else Finite(|t.1|))
      else RowScan(t.0, t.1, m)
  }

  /**
    What the code as written guarantees: `Exceeded` only when the distance is
    over the bound, and a finite result is always the exact distance.
   */
  lemma AsWrittenSound<T>(a: seq<T>, b: seq<T>, m: nat)
    ensures AsWritten(a, b, m).Exceeded? ==> Lev(a, b) > m
    ensures AsWritten(a, b, m).Finite? ==> AsWritten(a, b, m).value == Lev(a, b)
    ensures Lev(a, b) <= m ==> AsWritten(a, b, m) == Finite(Lev(a, b))
  {
    LevBounds(a, b);
    if Gap(|a|, |b|) <= m {
      var t := if |a| > |b| then Trim(b, a) else Trim(a, b);
      if |a| > |b| {
        TrimPreservesDistance(b, a);
        LevSymmetric(a, b);
      } else {
        TrimPreservesDistance(a, b);
      }
      assert Lev(t.0, t.1) == Lev(a, b);
      if |t.0| > 0 && SomeRowExceeds(t.0, t.1, m) {
        var i :| 1 <= i <= |t.0| && RowExceeds(t.0, t.1, i, m);
        ExceededRowBoundsDistance(t.0, t.1, i, m);
      }
    }
  }

  /** The prefix scan (index.js, the `start` loop). */
  method CommonPrefix<T(==)>(a: seq<T>, b: seq<T>) returns (start: nat)
    ensures start == CommonPrefixLength(a, b)
  {
    CommonPrefixLengthMaximal(a, b);
    var minLen := Min(|a|, |b|);
    start := 0;
    while start < minLen && a[start] == b[start]
      invariant start <= minLen
      invariant start <= CommonPrefixLength(a, b)
    {
      start := start + 1;
    }
  }

  /** The suffix scan: shrinks `aLen` and `bLen` together while the tails match. */
  method CommonSuffix<T(==)>(a: seq<T>, b: seq<T>, start: nat) returns (aLen: nat, bLen: nat)
    requires start <= |a| <= |b|
    ensures aLen == |a| - start - CommonSuffixLength(a[start..], b[start..])
    ensures bLen == |b| - start - CommonSuffixLength(a[start..], b[start..])
  {
    ghost var a1, b1 := a[start..], b[start..];
    CommonSuffixLengthMaximal(a1, b1, CommonSuffixLength(a1, b1));
    aLen := |a| - start;
    bLen := |b| - start;
    while aLen > 0 && a[start + aLen - 1] == b[start + bLen - 1]
      invariant aLen <= |a1|
      invariant bLen == aLen + (|b| - |a|)
      invariant |a1| - aLen <= CommonSuffixLength(a1, b1)
    {
      aLen := aLen - 1;
      bLen := bLen - 1;
    }
  }

  /** The `bChars` loop: a fresh array holding `b[start..start + bLen]`. */
  method CodeUnits<T(0)>(b: seq<T>, start: nat, bLen: nat) returns (bChars: array<T>)
    requires start + bLen <= |b|
    ensures fresh(bChars)
    ensures bChars.Length == bLen
    ensures forall k :: 0 <= k < bLen ==> bChars[k] == b[start + k]
  {
    bChars := new T[bLen];
    var i := 0;
    while i < bLen
      invariant i <= bLen
      invariant forall k :: 0 <= k < i ==> bChars[k] == b[start + k]
    {
      bChars[i] := b[start + i];
      i := i + 1;
    }
  }

  /** The buffer initialisation: row 0 of the table, `buffer[j] == j`. */
  method FirstRow(bLen: nat) returns (buffer: array<nat>)
    ensures fresh(buffer)
    ensures buffer.Length == bLen + 1
    ensures forall k :: 0 <= k <= bLen ==> buffer[k] == k
  {
    buffer := new nat[bLen + 1];
    var i := 0;
    while i <= bLen
      invariant i <= bLen + 1
      invariant forall k :: 0 <= k < i ==> buffer[k] == k
    {
      buffer[i] := i;
      i := i + 1;
    }
  }

  /**
    One pass of the outer loop: overwrites row `prev` of the table, held in
    `buffer`, with the next row `cur`, and returns the least cell of `cur`
    over columns 1..n. The rows are given as ghost sequences related by the
    table recurrence, with `ac` the code unit of the new row.
   */
  method NextRow<T(==)>(buffer: array<nat>, bChars: array<T>, ac: T, i: nat, ghost prev: seq<nat>, ghost cur: seq<nat>)
    returns (rowMinimum: nat)
    requires bChars as object != buffer as object
    requires buffer.Length == bChars.Length + 1 == |prev| == |cur|
    requires cur[0] == i && prev[0] == i - 1
    requires forall j :: 0 <= j < bChars.Length ==>
      cur[j + 1] == Cheapest(prev[j + 1], cur[j], prev[j], Cost(ac, bChars[j]))
    requires forall k :: 0 <= k < |prev| ==> buffer[k] == prev[k]
    modifies buffer
    ensures forall k :: 0 <= k < |cur| ==> buffer[k] == cur[k]
    ensures forall k :: 1 <= k < |cur| ==> rowMinimum <= cur[k]
    ensures rowMinimum <= bChars.Length
    ensures rowMinimum == bChars.Length || exists k :: 1 <= k < |cur| && rowMinimum == cur[k]
  {
    var bLen := bChars.Length;
    rowMinimum := bLen;
    buffer[0] := i;
    var above := i - 1;
    var j := 0;
    while j < bLen
      invariant j <= bLen
      invariant forall k :: 0 <= k <= j ==> buffer[k] == cur[k]
      invariant forall k :: j < k <= bLen ==> buffer[k] == prev[k]
      invariant above == prev[j]
      invariant forall k :: 1 <= k <= j ==> rowMinimum <= cur[k]
      invariant rowMinimum <= bLen
      invariant rowMinimum == bLen || exists k :: 1 <= k <= j && rowMinimum == cur[k]
    {
      var insertDeleteCost := Min(buffer[j], buffer[j + 1]) + 1;
      var substituteCost := if ac == bChars[j] then 0 else 1;
      var d := Min(insertDeleteCost, above + substituteCost);
      if d < rowMinimum {
        rowMinimum := d;
      }
      above := buffer[j + 1];
      buffer[j + 1] := d;
      j := j + 1;
    }
  }

  /** `NextRow` on row `i - 1` of the table for `A` and `B`. */
  method TableRow<T(==)>(buffer: array<nat>, bChars: array<T>, ac: T, i: nat, ghost A: seq<T>, ghost B: seq<T>)
    returns (rowMinimum: nat)
    requires 1 <= i <= |A| && ac == A[i - 1]
    requires bChars as object != buffer as object
    requires bChars.Length == |B| && buffer.Length == |B| + 1
    requires forall k :: 0 <= k < |B| ==> bChars[k] == B[k]
    requires forall k :: 0 <= k <= |B| ==> buffer[k] == LevRow(A[..i - 1], B)[k]
    modifies buffer
    ensures forall k :: 0 <= k <= |B| ==> buffer[k] == LevRow(A[..i], B)[k]
    ensures forall k :: 1 <= k <= |B| ==> rowMinimum <= LevRow(A[..i], B)[k]
    ensures rowMinimum == |B| || exists k :: 1 <= k <= |B| && rowMinimum == LevRow(A[..i], B)[k]
  {
    ghost var prev, cur := LevRow(A[..i - 1], B), LevRow(A[..i], B);
    LevRowStep(A, B, i);
    LevRowBorders(A[..i - 1], B);
    LevRowBorders(A[..i], B);
    rowMinimum := NextRow(buffer, bChars, ac, i, prev, cur);
  }

  /**
    The row minimum skips column 0, which holds `i`: that is sound because the
    diagonal cell (i, i) is at most `i`, so column 0 never holds the minimum
    alone.
   */
  lemma RowMinimumDecides<T>(A: seq<T>, B: seq<T>, i: nat, m: nat, rowMinimum: nat)
    requires 1 <= i <= |A| <= |B|
    requires forall k :: 1 <= k <= |B| ==> rowMinimum <= LevRow(A[..i], B)[k]
    requires rowMinimum == |B| || exists k :: 1 <= k <= |B| && rowMinimum == LevRow(A[..i], B)[k]
    ensures rowMinimum > m <==> RowExceeds(A, B, i, m)
  {
    var k: nat := |B|;
    if rowMinimum != |B| {
      k :| 1 <= k <= |B| && rowMinimum == LevRow(A[..i], B)[k];
    }
    // An untouched minimum is still at most the last cell, itself at most |B|.
    LevRowBorders(A[..i], B);
    LevRowCell(A[..i], B, k);
    LevRowCell(A[..i], B, i);
    LevRowCell(A[..i], B, 0);
    assert Lev(A[..i], B[..0]) == i;
    DiagonalAtMost(A, B, i);
    if rowMinimum > m {
      forall j | 0 <= j <= |B|
        ensures Lev(A[..i], B[..j]) > m
      {
        LevRowCell(A[..i], B, j);
      }
    }
  }

  lemma NoRowExceedsExtends<T>(A: seq<T>, B: seq<T>, i: nat, m: nat)
    requires 1 <= i <= |A|
    requires forall k :: 1 <= k < i ==> !RowExceeds(A, B, k, m)
    requires !RowExceeds(A, B, i, m)
    ensures forall k :: 1 <= k < i + 1 ==> !RowExceeds(A, B, k, m)
  {
  }

  lemma ScanStops<T>(A: seq<T>, B: seq<T>, i: nat, m: nat)
    requires 1 <= i <= |A| && RowExceeds(A, B, i, m)
    ensures RowScan(A, B, m) == Exceeded
  {
  }

  lemma ScanCompletes<T>(A: seq<T>, B: seq<T>, m: nat)
    requires forall k :: 1 <= k < |A| + 1 ==> !RowExceeds(A, B, k, m)
    ensures RowScan(A, B, m) == Finite(LevRow(A[..|A|], B)[|B|])
  {
    assert A[..|A|] == A;
    LevRowCell(A, B, |B|);
    TakeAll(B);
  }

  /**
    The two-row programme over `a[start..start + aLen]` and
    `b[start..start + bLen]`, with the early exit after each row.
   */
  method DistanceRows<T(0,==)>(a: seq<T>, b: seq<T>, start: nat, aLen: nat, bLen: nat, maxDistance: nat)
    returns (r: Distance)
    requires 1 <= aLen <= bLen
    requires start + aLen <= |a| && start + bLen <= |b|
    ensures r == RowScan(a[start..start + aLen], b[start..start + bLen], maxDistance)
  {
    ghost var A, B := a[start..start + aLen], b[start..start + bLen];
    var bChars := CodeUnits(b, start, bLen);
    var buffer := FirstRow(bLen);
    LevRowBorders(A, B);
    assert A[..0] == [];

    var i := 1;
    while i < aLen + 1
      invariant 1 <= i <= aLen + 1
      invariant buffer.Length == bLen + 1
      invariant forall k :: 0 <= k < bLen ==> bChars[k] == B[k]
      invariant forall k :: 0 <= k <= bLen ==> buffer[k] == LevRow(A[..i - 1], B)[k]
      invariant forall k :: 1 <= k < i ==> !RowExceeds(A, B, k, maxDistance)
    {
      var ac := a[start + i - 1];
      var rowMinimum := TableRow(buffer, bChars, ac, i, A, B);
      RowMinimumDecides(A, B, i, maxDistance, rowMinimum);
      if rowMinimum > maxDistance {
        ScanStops(A, B, i, maxDistance);
        return Exceeded;
      }
      NoRowExceedsExtends(A, B, i, maxDistance);
      i := i + 1;
    }

    ScanCompletes(A, B, maxDistance);
    return Finite(buffer[bLen]);
  }

  /** The index window the two scans leave is the trimmed pair. */
  lemma TrimWindow<T>(a: seq<T>, b: seq<T>, start: nat, aLen: nat, bLen: nat)
    requires |a| <= |b| && start == CommonPrefixLength(a, b)
    requires aLen == |a| - start - CommonSuffixLength(a[start..], b[start..])
    requires bLen == |b| - start - CommonSuffixLength(a[start..], b[start..])
    ensures start + aLen <= |a| && start + bLen <= |b|
    ensures Trim(a, b).0 == a[start..start + aLen]
    ensures Trim(a, b).1 == b[start..start + bLen]
  {
  }

  /**
    `boundedLevenshtein` exactly as index.js writes it. The final cell is
    returned without comparing it to `maxDistance`, so a finite result can
    exceed the bound (see `AsWrittenOvershoots`).
   */
  method BoundedLevenshteinAsWritten<T(0,==)>(a: seq<T>, b: seq<T>, maxDistance: nat) returns (r: Distance)
    ensures r == AsWritten(a, b, maxDistance)
    ensures r.Exceeded? ==> Lev(a, b) > maxDistance
    ensures r.Finite? ==> r.value == Lev(a, b)
    ensures Lev(a, b) <= maxDistance ==> r == Finite(Lev(a, b))
  {
    AsWrittenSound(a, b, maxDistance);
    if Gap(|a|, |b|) > maxDistance {
      return Exceeded;
    }

    var x, y := a, b;
    if |a| > |b| {
      x, y := b, a;
    }

    var start := CommonPrefix(x, y);
    var aLen, bLen := CommonSuffix(x, y, start);
    TrimWindow(x, y, start, aLen, bLen);

    if aLen == 0 {
      return if bLen > maxDistance then Exceeded else Finite(bLen);
    }

    r := DistanceRows(x, y, start, aLen, bLen, maxDistance);
  }

  /**
    `boundedLevenshtein` with the final cell compared to the bound: the exact
    distance when it is at most `maxDistance`, and `Exceeded` otherwise.
   */
  method BoundedLevenshtein<T(0,==)>(a: seq<T>, b: seq<T>, maxDistance: nat) returns (r: Distance)
    ensures r == Bounded(Lev(a, b), maxDistance)
  {
    r := BoundedLevenshteinAsWritten(a, b, maxDistance);
    if r.Finite? && r.value > maxDistance {
      r := Exceeded;
    }
  }

  /** The pre-filter: a length difference over the bound already decides the result. */
  lemma PreFilterSound<T>(a: seq<T>, b: seq<T>, m: nat)
    requires Gap(|a|, |b|) > m
    ensures Bounded(Lev(a, b), m) == Exceeded
  {
    LevBounds(a, b);
  }

  /**
    The fast exit for an empty trimmed first string: the distance is what is
    left of the second one, and after the pre-filter that is within the
    bound, so the exit's `Exceeded` arm is never taken.
   */
  lemma EmptyTrimWithinBound<T>(a: seq<T>, b: seq<T>, m: nat)
    requires |a| <= |b| && Gap(|a|, |b|) <= m && |Trim(a, b).0| == 0
    ensures Lev(a, b) == |Trim(a, b).1| <= m
  {
    TrimPreservesDistance(a, b);
  }

  /** Exchanging the arguments cannot change the promised result. */
  lemma SwapUnobservable<T>(a: seq<T>, b: seq<T>, m: nat)
    ensures Bounded(Lev(a, b), m) == Bounded(Lev(b, a), m)
  {
    LevSymmetric(a, b);
  }

  /**
    When the lengths differ the swap puts the arguments in the same order
    either way round, so the code as written is symmetric there too.
   */
  lemma AsWrittenSwapWhenLengthsDiffer<T>(a: seq<T>, b: seq<T>, m: nat)
    requires |a| != |b|
    ensures AsWritten(a, b, m) == AsWritten(b, a, m)
  {
  }

  /**
    The final cell is returned unchecked. For two distinct code units `x` and
    `y` (for instance "ab" against "ba") with bound 1, the last row holds a
    cell at 1, so the early exit never fires, yet the distance is 2.
   */
  lemma AsWrittenOvershoots<T>(x: T, y: T)
    requires x != y
    ensures Lev([x, y], [y, x]) == 2
    ensures AsWritten([x, y], [y, x], 1) == Finite(2)
    ensures Bounded(Lev([x, y], [y, x]), 1) == Exceeded
  {
    UntrimmedPairScans([x, y], [y, x], 1);
    NoRowExceedsSwapped(x, y);
    LevSwapped(x, y);
  }

  /**
    For equal lengths there is no swap, and the overshoot shows through it.
    For three distinct code units (for instance "ab" and "ca") with bound 1,
    one order gives `Exceeded` and the other gives 2.
   */
  lemma AsWrittenSwapObservable<T>(x: T, y: T, z: T)
    requires x != y && y != z && z != x
    ensures AsWritten([x, y], [z, x], 1) == Exceeded
    ensures AsWritten([z, x], [x, y], 1) == Finite(2)
  {
    UntrimmedPairScans([x, y], [z, x], 1);
    UntrimmedPairScans([z, x], [x, y], 1);
    LevRotated(x, y, z);
    LastRowOfRotatedExceeds(x, y, z);
    NoRowExceedsRotated(x, y, z);
  }

  /** Two pairs that differ at both ends are left whole, so the rows decide. */
  lemma UntrimmedPairScans<T>(a: seq<T>, b: seq<T>, m: nat)
    requires |a| == 2 && |b| == 2 && a[0] != b[0] && a[1] != b[1]
    ensures AsWritten(a, b, m) == RowScan(a, b, m)
  {
    assert CommonPrefixLength(a, b) == 0;
    assert a[0..] == a && b[0..] == b;
    assert CommonSuffixLength(a, b) == 0;
    assert Trim(a, b).0 == a && Trim(a, b).1 == b;
  }

  /**
    `PairPrefixes`, `SwappedCells` and `RotatedCells` name the prefixes and
    table cells the two findings use, in lemmas of their own with no row term
    in scope, only to keep the solver's work small.
   */
  lemma PairPrefixes<T>(x: T, y: T)
    ensures [x, y][..0] == [] && [x, y][..1] == [x] && [x, y][..2] == [x, y]
  {
  }

  lemma NoRowExceedsSwapped<T>(x: T, y: T)
    requires x != y
    ensures !SomeRowExceeds([x, y], [y, x], 1)
  {
    SwappedCells(x, y);
    NoRowOfTwoExceeds(x, y, [y, x], 1, 1, [y], [y], 1);
  }

  /** Cells (1, 1) and (2, 1) of the table for `[x, y]` and `[y, x]`. */
  lemma SwappedCells<T>(x: T, y: T)
    requires x != y
    ensures [y, x][..1] == [y] && Lev([x], [y]) <= 1 && Lev([x, y], [y]) <= 1
  {
    PairPrefixes(y, x);
    LevSingle(x, y);
    LevPairVsSingle(x, y, y);
  }

  lemma NoRowExceedsRotated<T>(x: T, y: T, z: T)
    requires z != x
    ensures !SomeRowExceeds([z, x], [x, y], 1)
  {
    RotatedCells(x, y, z);
    NoRowOfTwoExceeds(z, x, [x, y], 1, 1, [x], [x], 1);
  }

  /** Cells (1, 1) and (2, 1) of the table for `[z, x]` and `[x, y]`. */
  lemma RotatedCells<T>(x: T, y: T, z: T)
    requires z != x
    ensures [x, y][..1] == [x] && Lev([z], [x]) <= 1 && Lev([z, x], [x]) <= 1
  {
    PairPrefixes(x, y);
    LevSingle(z, x);
    LevPairVsSingle(z, x, x);
  }

  lemma LastRowOfRotatedExceeds<T>(x: T, y: T, z: T)
    requires x != y && y != z && z != x
    requires Lev([x, y], [z, x]) == 2
    ensures RowExceeds([x, y], [z, x], 2, 1)
  {
    PairPrefixes(x, y);
    PairPrefixes(z, x);
    LevPairVsSingle(x, y, z);
    assert Lev([x, y], []) == 2;
    var a, b := [x, y], [z, x];
    forall j | 0 <= j <= |b|
      ensures Lev(a[..2], b[..j]) > 1
    {
      if j == 0 {
        assert b[..j] == [];
      } else if j == 1 {
        assert b[..j] == [z];
      } else {
        assert b[..j] == b;
      }
    }
  }

  /**
    Neither row of a two-unit first string exceeds `m` when each has a cell
    within it: cell `j1` of row 1 and cell `j2` of row 2, whose prefixes of
    `b` are `c1` and `c2`.
   */
  lemma NoRowOfTwoExceeds<T>(x0: T, x1: T, b: seq<T>, j1: nat, j2: nat, c1: seq<T>, c2: seq<T>, m: nat)
    requires j1 <= |b| && j2 <= |b| && b[..j1] == c1 && b[..j2] == c2
    requires Lev([x0], c1) <= m && Lev([x0, x1], c2) <= m
    ensures !SomeRowExceeds([x0, x1], b, m)
  {
    var a := [x0, x1];
    PairPrefixes(x0, x1);
    forall i | 1 <= i <= |a|
      ensures !RowExceeds(a, b, i, m)
    {
      if i == 1 {
        assert Lev(a[..i], b[..j1]) <= m;
      } else {
        assert Lev(a[..i], b[..j2]) <= m;
      }
    }
  }
}

=== FILE: edit_distance.dfy ===
/**
  The textbook Levenshtein distance over sequences of code units, and the
  facts about it that the optimisations of the bounded algorithm rely on.

  The code units are a type parameter: the algorithm only ever compares two
  code units for equality, so nothing else about them matters.
 */
module EditDistance {

  function Min(x: int, y: int): (r: int) {
    if x <= y then x else y
  }

  function Max(x: int, y: int): (r: int) {
    if x >= y then x else y
  }

  /** The absolute difference of two lengths. */
  function Gap(m: nat, n: nat): (r: nat) {
    if m >= n then m - n else n - m
  }

  /** Cost of aligning code unit `x` with code unit `y`. */
  function Cost<T(==)>(x: T, y: T): (r: nat) {
    if x == y then 0 else 1
  }

  /**
    One cell of the table from its three neighbours: the cell above (`del`,
    delete a code unit of the first sequence), the cell to the left (`ins`,
    insert one of the second) and the diagonal cell (`sub`), to which the
    `cost` of aligning the two current code units is added.
   */
  function Cheapest(del: nat, ins: nat, sub: nat, cost: nat): (r: nat) {
    Min(Min(del, ins) + 1, sub + cost)
  }

  /**
    Unit-cost edit distance, by recursion on the last code unit of each side.
    `Lev(a[..i], b[..j])` is cell (i, j) of the dynamic-programming table.
   */
  function Lev<T(==)>(a: seq<T>, b: seq<T>): (r: nat)
    decreases |a| + |b|
  {
    if |a| == 0 then |b|
    else if |b| == 0 then |a|
    else
      Cheapest(Lev(a[..|a| - 1], b),
               Lev(a, b[..|b| - 1]),
               Lev(a[..|a| - 1], b[..|b| - 1]),
               Cost(a[|a| - 1], b[|b| - 1]))
  }

  /** The distance is at least the difference of the lengths and at most the longer length. */
  lemma {:induction false} LevBounds<T>(a: seq<T>, b: seq<T>)
    ensures Gap(|a|, |b|) <= Lev(a, b) <= Max(|a|, |b|)
    decreases |a| + |b|
  {
    if |a| > 0 && |b| > 0 {
      LevBounds(a[..|a| - 1], b);
      LevBounds(a, b[..|b| - 1]);
      LevBounds(a[..|a| - 1], b[..|b| - 1]);
    }
  }

  /** The table recurrence, stated on prefixes of two fixed sequences. */
  lemma LevRecurrence<T>(a: seq<T>, b: seq<T>, i: nat, j: nat)
    requires 1 <= i <= |a| && 1 <= j <= |b|
    ensures Lev(a[..i], b[..j])
         == Cheapest(Lev(a[..i - 1], b[..j]),
                     Lev(a[..i], b[..j - 1]),
                     Lev(a[..i - 1], b[..j - 1]),
                     Cost(a[i - 1], b[j - 1]))
  {
    assert a[..i][..i - 1] == a[..i - 1];
    assert b[..j][..j - 1] == b[..j - 1];
  }

  lemma {:induction false} LevSymmetric<T>(a: seq<T>, b: seq<T>)
    ensures Lev(a, b) == Lev(b, a)
    decreases |a| + |b|
  {
    if |a| > 0 && |b| > 0 {
      LevSymmetric(a[..|a| - 1], b);
      LevSymmetric(a, b[..|b| - 1]);
      LevSymmetric(a[..|a| - 1], b[..|b| - 1]);
    }
  }

  lemma {:induction false} LevSelf<T>(a: seq<T>)
    ensures Lev(a, a) == 0
  {
    if |a| > 0 {
      LevSelf(a[..|a| - 1]);
    }
  }

  /** A single code unit matched against a sequence that starts with it. */
  lemma {:induction false} LevUnitPrefix<T>(c: T, y: seq<T>)
    ensures Lev([c], [c] + y) == |y|
  {
    var cy := [c] + y;
    if |y| == 0 {
      assert cy == [c];
      assert cy[..0] == [];
    } else {
      var y' := y[..|y| - 1];
      assert cy[..|cy| - 1] == [c] + y';
      LevUnitPrefix(c, y');
      assert [c][..0] == [];
    }
  }

  /** A shared first code unit contributes nothing to the distance. */
  lemma {:induction false} StripFirst<T>(c: T, x: seq<T>, y: seq<T>)
    ensures Lev([c] + x, [c] + y) == Lev(x, y)
    decreases |x| + |y|
  {
    if |x| == 0 {
      assert [c] + x == [c];
      LevUnitPrefix(c, y);
    } else if |y| == 0 {
      assert [c] + y == [c];
      LevUnitPrefix(c, x);
      LevSymmetric([c] + x, [c]);
    } else {
      var x', y' := x[..|x| - 1], y[..|y| - 1];
      StripFirst(c, x', y);
      StripFirst(c, x, y');
      StripFirst(c, x', y');
      LevUnfoldFront(c, x, y);
    }
  }

  /** The recurrence for two sequences that share their first code unit. */
  lemma LevUnfoldFront<T>(c: T, x: seq<T>, y: seq<T>)
    requires |x| > 0 && |y| > 0
    ensures Lev([c] + x, [c] + y)
         == Cheapest(Lev([c] + x[..|x| - 1], [c] + y),
                     Lev([c] + x, [c] + y[..|y| - 1]),
                     Lev([c] + x[..|x| - 1], [c] + y[..|y| - 1]),
                     Cost(x[|x| - 1], y[|y| - 1]))
  {
    LevUnfold([c] + x, [c] + y);
    DropLastOfCons(c, x);
    DropLastOfCons(c, y);
  }

  /** The recurrence for two non-empty sequences. */
  lemma LevUnfold<T>(a: seq<T>, b: seq<T>)
    requires |a| > 0 && |b| > 0
    ensures Lev(a, b)
         == Cheapest(Lev(a[..|a| - 1], b),
                     Lev(a, b[..|b| - 1]),
                     Lev(a[..|a| - 1], b[..|b| - 1]),
                     Cost(a[|a| - 1], b[|b| - 1]))
  {
  }

  lemma DropLastOfCons<T>(c: T, x: seq<T>)
    requires |x| > 0
    ensures ([c] + x)[..|x|] == [c] + x[..|x| - 1]
    ensures ([c] + x)[|x|] == x[|x| - 1]
  {
  }

  /** Removing a common prefix preserves the distance. */
  lemma {:induction false} StripCommonPrefix<T>(p: seq<T>, x: seq<T>, y: seq<T>)
    ensures Lev(p + x, p + y) == Lev(x, y)
  {
    if |p| == 0 {
      assert p + x == x && p + y == y;
    } else {
      assert p + x == [p[0]] + (p[1..] + x);
      assert p + y == [p[0]] + (p[1..] + y);
      StripFirst(p[0], p[1..] + x, p[1..] + y);
      StripCommonPrefix(p[1..], x, y);
    }
  }

  /** A shared prefix and a shared suffix together contribute nothing. */
  lemma StripCommonParts<T>(p: seq<T>, x: seq<T>, y: seq<T>, s: seq<T>)
    ensures Lev(p + x + s, p + y + s) == Lev(x, y)
  {
    var xs, ys := x + s, y + s;
    assert p + x + s == p + xs && p + y + s == p + ys;
    StripCommonPrefix(p, xs, ys);
    assert xs[|xs| - |s|..] == s == ys[|ys| - |s|..];
    StripCommonSuffix(xs, ys, |s|);
    assert xs[..|xs| - |s|] == x && ys[..|ys| - |s|] == y;
  }

  /** Dropping the last code unit of `b` moves the distance by at most one. */
  lemma {:induction false} LevDropLast<T>(a: seq<T>, b: seq<T>)
    requires |b| > 0
    ensures Lev(a, b[..|b| - 1]) <= Lev(a, b) + 1
  {
    if |a| > 0 {
      var a', b' := a[..|a| - 1], b[..|b| - 1];
      LevUnfold(a, b);
      LevDropLast(a', b);
      // Deleting the last code unit of `a` costs one.
      if |b'| > 0 {
        LevUnfold(a, b');
      }
      assert Lev(a, b') <= Lev(a', b') + 1;
    }
  }

  /** A shared last code unit contributes nothing to the distance. */
  lemma StripLast<T>(a: seq<T>, b: seq<T>)
    requires |a| > 0 && |b| > 0 && a[|a| - 1] == b[|b| - 1]
    ensures Lev(a[..|a| - 1], b[..|b| - 1]) == Lev(a, b)
  {
    LevUnfold(a, b);
    LevDropLast(a[..|a| - 1], b);
    LevDropLast(b[..|b| - 1], a);
    LevSymmetric(b[..|b| - 1], a);
    LevSymmetric(b[..|b| - 1], a[..|a| - 1]);
  }

  /** Removing a common suffix of length `s` preserves the distance. */
  lemma {:induction false} StripCommonSuffix<T>(a: seq<T>, b: seq<T>, s: nat)
    requires s <= |a| && s <= |b| && a[|a| - s..] == b[|b| - s..]
    ensures Lev(a[..|a| - s], b[..|b| - s]) == Lev(a, b)
  {
    if s == 0 {
      TakeAll(a);
      TakeAll(b);
    } else {
      SuffixShrinks(a, b, s);
      StripLast(a[..|a| - (s - 1)], b[..|b| - (s - 1)]);
      StripCommonSuffix(a, b, s - 1);
    }
  }

  lemma TakeAll<T>(a: seq<T>)
    ensures a[..|a|] == a
  {
  }

  /** Sequence bookkeeping for one step of `StripCommonSuffix`. */
  lemma SuffixShrinks<T>(a: seq<T>, b: seq<T>, s: nat)
    requires 0 < s <= |a| && s <= |b| && a[|a| - s..] == b[|b| - s..]
    ensures a[|a| - (s - 1)..] == b[|b| - (s - 1)..]
    ensures a[|a| - s] == b[|b| - s]
    ensures a[..|a| - (s - 1)][..|a| - s] == a[..|a| - s]
    ensures b[..|b| - (s - 1)][..|b| - s] == b[..|b| - s]
  {
    assert a[|a| - s] == a[|a| - s..][0] == b[|b| - s..][0] == b[|b| - s];
    assert a[|a| - (s - 1)..] == a[|a| - s..][1..];
    assert b[|b| - (s - 1)..] == b[|b| - s..][1..];
  }

  /**
    Row `|a|` of the table never goes below row `|a| + 1`: every cell of the
    next row is at least some cell, at the same or an earlier column, of the
    current one.
   */
  lemma {:induction false} NextRowDominated<T>(a: seq<T>, c: T, b: seq<T>)
    ensures exists k :: 0 <= k <= |b| && Lev(a, b[..k]) <= Lev(a + [c], b)
  {
    var ac := a + [c];
    assert ac[..|ac| - 1] == a;
    if |b| == 0 {
      assert b[..0] == b;
    } else {
      var b' := b[..|b| - 1];
      assert b[..|b|] == b;
      NextRowDominated(a, c, b');
      var k :| 0 <= k <= |b'| && Lev(a, b'[..k]) <= Lev(ac, b');
      assert b'[..k] == b[..k];
    }
  }

  /** Distance between two single code units. */
  lemma LevSingle<T>(x: T, y: T)
    ensures Lev([x], [y]) == Cost(x, y)
  {
    assert [x][..0] == [] && [y][..0] == [];
  }

  lemma LevSingleVsPairStep<T>(x: T, y: T, z: T)
    ensures Lev([x], [y, z]) == Cheapest(2, Cost(x, y), 1, Cost(x, z))
  {
    assert [x][..0] == [] && [y, z][..1] == [y];
    LevSingle(x, y);
    LevUnfold([x], [y, z]);
  }

  /** One code unit against two: one edit if it occurs among them, else two. */
  lemma LevSingleVsPair<T>(x: T, y: T, z: T)
    ensures Lev([x], [y, z]) == if x == y || x == z then 1 else 2
  {
    LevSingleVsPairStep(x, y, z);
  }

  lemma LevPairVsSingle<T>(x: T, y: T, z: T)
    ensures Lev([x, y], [z]) == if z == x || z == y then 1 else 2
  {
    LevSingleVsPair(z, x, y);
    LevSymmetric([x, y], [z]);
  }

  lemma LevPairs<T>(w: T, x: T, y: T, z: T)
    ensures Lev([w, x], [y, z])
         == Cheapest(Lev([w], [y, z]), Lev([w, x], [y]), Lev([w], [y]), Cost(x, z))
  {
    assert [w, x][..1] == [w] && [y, z][..1] == [y];
    LevUnfold([w, x], [y, z]);
  }

  /** Two distinct code units against themselves reversed: two edits. */
  lemma LevSwapped<T>(x: T, y: T)
    requires x != y
    ensures Lev([x, y], [y, x]) == 2
  {
    LevPairs(x, y, y, x);
    LevSingleVsPair(x, y, x);
    LevPairVsSingle(x, y, y);
    LevSingle(x, y);
  }

  /** `[x, y]` against `[z, x]`, for three distinct code units, both ways round: two edits. */
  lemma LevRotated<T>(x: T, y: T, z: T)
    requires x != y && y != z && z != x
    ensures Lev([x, y], [z, x]) == 2
    ensures Lev([z, x], [x, y]) == 2
  {
    LevPairs(x, y, z, x);
    LevSingleVsPair(x, z, x);
    LevPairVsSingle(x, y, z);
    LevSingle(x, z);
    LevPairs(z, x, x, y);
    LevSingleVsPair(z, x, y);
    LevPairVsSingle(z, x, x);
    LevSingle(z, x);
  }

  /** Row `|a|` of the table for `a` and `b`: cell `k` is `Lev(a, b[..k])`. */
  ghost function LevRow<T>(a: seq<T>, b: seq<T>): (row: seq<nat>)
    ensures |row| == |b| + 1
    decreases |b|
  {
    if |b| == 0 then [|a|] else LevRow(a, b[..|b| - 1]) + [Lev(a, b)]
  }

  lemma {:induction false} LevRowCell<T>(a: seq<T>, b: seq<T>, k: nat)
    requires k <= |b|
    ensures LevRow(a, b)[k] == Lev(a, b[..k])
    decreases |b|
  {
    if k == |b| {
      TakeAll(b);
    } else {
      var b' := b[..|b| - 1];
      LevRowCell(a, b', k);
      assert b'[..k] == b[..k];
    }
  }

  /** Row 0 counts insertions; column 0 of row `|a|` holds `|a|`; the last cell is at most `|b|` when `|a| <= |b|`. */
  lemma LevRowBorders<T>(a: seq<T>, b: seq<T>)
    ensures forall k :: 0 <= k <= |b| ==> LevRow([], b)[k] == k
    ensures LevRow(a, b)[0] == |a|
    ensures |a| <= |b| ==> LevRow(a, b)[|b|] <= |b|
  {
    forall k | 0 <= k <= |b|
      ensures LevRow([], b)[k] == k
    {
      LevRowCell([], b, k);
    }
    LevRowCell(a, b, 0);
    LevRowCell(a, b, |b|);
    TakeAll(b);
    LevBounds(a, b);
  }

  /** The table recurrence, stated on whole rows `i - 1` and `i`. */
  lemma LevRowStep<T>(a: seq<T>, b: seq<T>, i: nat)
    requires 1 <= i <= |a|
    ensures forall j :: 0 <= j < |b| ==>
      LevRow(a[..i], b)[j + 1]
        == Cheapest(LevRow(a[..i - 1], b)[j + 1],
                    LevRow(a[..i], b)[j],
                    LevRow(a[..i - 1], b)[j],
                    Cost(a[i - 1], b[j]))
  {
    forall j | 0 <= j < |b|
      ensures LevRow(a[..i], b)[j + 1]
        == Cheapest(LevRow(a[..i - 1], b)[j + 1],
                    LevRow(a[..i], b)[j],
                    LevRow(a[..i - 1], b)[j],
                    Cost(a[i - 1], b[j]))
    {
      LevRowCell(a[..i], b, j + 1);
      LevRowCell(a[..i], b, j);
      LevRowCell(a[..i - 1], b, j + 1);
      LevRowCell(a[..i - 1], b, j);
      LevRecurrence(a, b, i, j + 1);
    }
  }

  /** The table recurrence between the rows of `p` and of `p + [c]`. */
  lemma LevRowNext<T>(p: seq<T>, c: T, b: seq<T>)
    ensures forall j :: 0 <= j < |b| ==>
      LevRow(p + [c], b)[j + 1]
        == Cheapest(LevRow(p, b)[j + 1], LevRow(p + [c], b)[j], LevRow(p, b)[j], Cost(c, b[j]))
  {
    var a := p + [c];
    assert a[..|p| + 1] == a && a[..|p|] == p && a[|p|] == c;
    LevRowStep(a, b, |p| + 1);
  }

  /**
    A row that starts at `|p| + 1` and follows the recurrence from the row
    of `p` is the row of `p + [c]`.
   */
  lemma LevRowFromPrevious<T>(p: seq<T>, c: T, b: seq<T>, prev: seq<nat>, cur: seq<nat>)
    requires LevRow(p, b) == prev && |cur| == |b| + 1 && cur[0] == |p| + 1
    requires forall j :: 0 <= j < |b| ==> cur[j + 1] == Cheapest(prev[j + 1], cur[j], prev[j], Cost(c, b[j]))
    ensures LevRow(p + [c], b) == cur
  {
    LevRowNext(p, c, b);
    LevRowBorders(p + [c], b);
    RowAgrees(p, c, b, prev, cur, |b|);
  }

  lemma {:induction false} RowAgrees<T>(p: seq<T>, c: T, b: seq<T>, prev: seq<nat>, cur: seq<nat>, k: nat)
    requires LevRow(p, b) == prev && |cur| == |b| + 1 && cur[0] == |p| + 1 && k <= |b|
    requires forall j :: 0 <= j < |b| ==> cur[j + 1] == Cheapest(prev[j + 1], cur[j], prev[j], Cost(c, b[j]))
    requires LevRow(p + [c], b)[0] == |p| + 1
    requires forall j :: 0 <= j < |b| ==>
      LevRow(p + [c], b)[j + 1]
        == Cheapest(LevRow(p, b)[j + 1], LevRow(p + [c], b)[j], LevRow(p, b)[j], Cost(c, b[j]))
    ensures forall j :: 0 <= j <= k ==> cur[j] == LevRow(p + [c], b)[j]
  {
    if k > 0 {
      RowAgrees(p, c, b, prev, cur, k - 1);
      var j := k - 1;
      assert cur[j + 1] == Cheapest(prev[j + 1], cur[j], prev[j], Cost(c, b[j]));
    }
  }

  /** The last cell of a row is the distance itself. */
  lemma LevRowLast<T>(a: seq<T>, b: seq<T>)
    ensures LevRow(a, b)[|b|] == Lev(a, b)
  {
  }

  /** Every cell of row `i` of the table for `a` and `b` exceeds `m`. */
  ghost predicate RowExceeds<T>(a: seq<T>, b: seq<T>, i: nat, m: nat)
    requires i <= |a|
  {
    forall j :: 0 <= j <= |b| ==> Lev(a[..i], b[..j]) > m
  }

  /** Once a whole row exceeds the bound, so does every later row. */
  lemma RowExceedsPropagates<T>(a: seq<T>, b: seq<T>, i: nat, m: nat)
    requires i < |a| && RowExceeds(a, b, i, m)
    ensures RowExceeds(a, b, i + 1, m)
  {
    assert a[..i] + [a[i]] == a[..i + 1];
    forall j | 0 <= j <= |b|
      ensures Lev(a[..i + 1], b[..j]) > m
    {
      NextRowDominated(a[..i], a[i], b[..j]);
      var k :| 0 <= k <= j && Lev(a[..i], b[..j][..k]) <= Lev(a[..i + 1], b[..j]);
      assert b[..j][..k] == b[..k];
    }
  }

  /**
    The least value of a row never decreases from one row to the next, so
    the distance is at least some cell of every completed row.
   */
  lemma {:induction false} LastCellDominated<T>(a: seq<T>, b: seq<T>, i: nat)
    requires i <= |a|
    ensures exists j :: 0 <= j <= |b| && Lev(a[..i], b[..j]) <= Lev(a, b)
    decreases |a| - i
  {
    if i == |a| {
      assert a[..i] == a && b[..|b|] == b;
    } else {
      LastCellDominated(a, b, i + 1);
      var j :| 0 <= j <= |b| && Lev(a[..i + 1], b[..j]) <= Lev(a, b);
      assert a[..i] + [a[i]] == a[..i + 1];
      NextRowDominated(a[..i], a[i], b[..j]);
      var k :| 0 <= k <= j && Lev(a[..i], b[..j][..k]) <= Lev(a[..i + 1], b[..j]);
      assert b[..j][..k] == b[..k];
    }
  }

  /** A completed row that exceeds the bound proves the distance exceeds it. */
  lemma ExceededRowBoundsDistance<T>(a: seq<T>, b: seq<T>, i: nat, m: nat)
    requires i <= |a| && RowExceeds(a, b, i, m)
    ensures Lev(a, b) > m
  {
    LastCellDominated(a, b, i);
  }

  /** The diagonal cell (i, i) is at most `i`. */
  lemma DiagonalAtMost<T>(a: seq<T>, b: seq<T>, i: nat)
    requires i <= |a| && i <= |b|
    ensures Lev(a[..i], b[..i]) <= i
  {
    LevBounds(a[..i], b[..i]);
  }
}

=== FILE: test_vectors.dfy ===
/**
  The assertions of the package's test file, stated about the model: each
  pair of strings with the bound 12, the distance the tests expect, and what
  both the code as written and the corrected function return for it.
 */
module TestVectors {
  import opened EditDistance
  import opened BoundedLevenshtein

  /** The bound every assertion of test.js uses. */
  const MaxDistance: nat := 12

  /** A pair whose distance is within the bound: both versions return it. */
  lemma WithinBound<T>(a: seq<T>, b: seq<T>, d: nat)
    requires Lev(a, b) == d <= MaxDistance
    ensures AsWritten(a, b, MaxDistance) == Finite(d)
    ensures Bounded(Lev(a, b), MaxDistance) == Finite(d)
  {
    AsWrittenSound(a, b, MaxDistance);
  }

  /**
    `cur` follows `prev` in a table against the four-unit `b` when the row
    after it is built for the unit `c`: each cell is the cheapest of deleting,
    inserting and substituting.

    This is `LevRowFromPrevious`'s recurrence written out for the one 4-by-4
    table the `Accents` vector needs; the explicit cells keep the solver's
    work small. `RowOfFour`, `FirstRowOfFour` and `FourRows` certify
    only that table shape.
   */
  predicate Follows<T(==)>(prev: seq<nat>, cur: seq<nat>, c: T, b: seq<T>) {
    && |b| == 4 && |prev| == 5 && |cur| == 5
    && cur[1] == Cheapest(prev[1], cur[0], prev[0], Cost(c, b[0]))
    && cur[2] == Cheapest(prev[2], cur[1], prev[1], Cost(c, b[1]))
    && cur[3] == Cheapest(prev[3], cur[2], prev[2], Cost(c, b[2]))
    && cur[4] == Cheapest(prev[4], cur[3], prev[3], Cost(c, b[3]))
  }

  /** A row that follows row `i` of the table for `a` and `b` is row `i + 1`. */
  lemma RowOfFour<T>(a: seq<T>, i: nat, b: seq<T>, prev: seq<nat>, cur: seq<nat>)
    requires i < |a| && LevRow(a[..i], b) == prev && Follows(prev, cur, a[i], b) && cur[0] == i + 1
    ensures LevRow(a[..i + 1], b) == cur
  {
    var p, c := a[..i], a[i];
    forall j | 0 <= j < |b|
      ensures cur[j + 1] == Cheapest(prev[j + 1], cur[j], prev[j], Cost(c, b[j]))
    {
      // The empty branches only make the solver take the four columns one by one.
      if j == 0 {
      } else if j == 1 {
      } else if j == 2 {
      } else {
      }
    }
    LevRowFromPrevious(p, c, b, prev, cur);
    PrefixGrows(a, i);
  }

  lemma PrefixGrows<T>(a: seq<T>, i: nat)
    requires i < |a|
    ensures a[..i] + [a[i]] == a[..i + 1]
  {
  }

  /**
    A four-by-four table whose rows each follow the one before certifies the
    distance in its last cell.
   */
  lemma FourRows<T>(a: seq<T>, b: seq<T>, r0: seq<nat>, r1: seq<nat>, r2: seq<nat>, r3: seq<nat>, r4: seq<nat>)
    requires |a| == 4 && |b| == 4 && |r0| == 5
    requires r0[0] == 0 && r0[1] == 1 && r0[2] == 2 && r0[3] == 3 && r0[4] == 4
    requires Follows(r0, r1, a[0], b) && r1[0] == 1
    requires Follows(r1, r2, a[1], b) && r2[0] == 2
    requires Follows(r2, r3, a[2], b) && r3[0] == 3
    requires Follows(r3, r4, a[3], b) && r4[0] == 4
    ensures Lev(a, b) == r4[4]
  {
    FirstRowOfFour(a, b, r0);
    RowOfFour(a, 0, b, r0, r1);
    RowOfFour(a, 1, b, r1, r2);
    RowOfFour(a, 2, b, r2, r3);
    RowOfFour(a, 3, b, r3, r4);
    LevRowLast(a[..4], b);
    TakeAll(a);
  }

  lemma FirstRowOfFour<T>(a: seq<T>, b: seq<T>, r0: seq<nat>)
    requires |b| == 4 && |r0| == 5
    requires r0[0] == 0 && r0[1] == 1 && r0[2] == 2 && r0[3] == 3 && r0[4] == 4
    ensures LevRow(a[..0], b) == r0
  {
    LevRowBorders(a[..0], b);
    assert a[..0] == [];
    forall k | 0 <= k < 5
      ensures LevRow(a[..0], b)[k] == r0[k]
    {
      // The empty branches only make the solver take the five cells one by one.
      if k == 0 {
      } else if k == 1 {
      } else if k == 2 {
      } else if k == 3 {
      } else {
      }
    }
  }

  /**
    Two four-unit strings that agree only in their two middle units, as
    "entś" and "ėnts" do, are two substitutions apart, and no fewer.
   */
  lemma TwoSubstitutions<T>(a: seq<T>, b: seq<T>)
    requires |a| == 4 && |b| == 4 && a[1] == b[1] && a[2] == b[2]
    requires a[0] != b[0] && a[0] != b[1] && a[0] != b[2] && a[0] != b[3]
    requires a[1] != b[0] && a[1] != b[2] && a[1] != b[3] && a[2] != b[0] && a[2] != b[1] && a[2] != b[3]
    requires a[3] != b[0] && a[3] != b[3]
    ensures Lev(a, b) == 2
  {
    FourRows(a, b, [0, 1, 2, 3, 4], [1, 1, 2, 3, 4], [2, 2, 1, 2, 3], [3, 3, 2, 1, 2], [4, 4, 3, 2, 2]);
  }

  /** test.js:25: the accented pair is two code units apart. */
  lemma Accents()
    ensures AsWritten("accent\U{015B}", "acc\U{0117}nts", MaxDistance) == Finite(2)
    ensures Bounded(Lev("accent\U{015B}", "acc\U{0117}nts"), MaxDistance) == Finite(2)
  {
    var x, y := "ent\U{015B}", "\U{0117}nts";
    TwoSubstitutions(x, y);
    StripCommonPrefix("acc", x, y);
    AccentsSplit();
    WithinBound("accent\U{015B}", "acc\U{0117}nts", 2);
  }

  /**
    The string concatenations the test vectors rely on. This lemma and
    `EndSplits`, `StartSplits` and `MiddleSplits` state them apart from any
    `Lev` term only to keep the solver's work small.
   */
  lemma AccentsSplit()
    ensures "acc" + "ent\U{015B}" == "accent\U{015B}" && "acc" + "\U{0117}nts" == "acc\U{0117}nts"
  {
  }

  /**
    A pair that shares the prefix `p` and the suffix `s` and differs in one
    inserted, deleted or substituted unit between them is one edit apart.
   */
  lemma OneEdit<T>(a: seq<T>, b: seq<T>, p: seq<T>, x: seq<T>, y: seq<T>, s: seq<T>)
    requires a == p + x + s && b == p + y + s
    requires (|x| == 0 && |y| == 1) || (|x| == 1 && |y| == 0) || (|x| == |y| == 1 && x[0] != y[0])
    ensures AsWritten(a, b, MaxDistance) == Finite(1)
    ensures Bounded(Lev(a, b), MaxDistance) == Finite(1)
  {
    StripCommonParts(p, x, y, s);
    if |x| == |y| {
      LevSingle(x[0], y[0]);
      assert x == [x[0]] && y == [y[0]];
    } else {
      LevBounds(x, y);
    }
    WithinBound(a, b, 1);
  }

  /** test.js:11: a string is no distance from itself. */
  lemma Equal()
    ensures AsWritten("equal", "equal", MaxDistance) == Finite(0)
    ensures Bounded(Lev("equal", "equal"), MaxDistance) == Finite(0)
  {
    LevSelf("equal");
    WithinBound("equal", "equal", 0);
  }

  /** test.js:12-14: one unit added, changed or removed at the end. */
  lemma EditsAtEnd()
    ensures AsWritten("add at end", "add at endx", MaxDistance) == Finite(1)
    ensures AsWritten("diff at end", "diff at ene", MaxDistance) == Finite(1)
    ensures AsWritten("nix at end", "nix at en", MaxDistance) == Finite(1)
    ensures Bounded(Lev("add at end", "add at endx"), MaxDistance) == Finite(1)
    ensures Bounded(Lev("diff at end", "diff at ene"), MaxDistance) == Finite(1)
    ensures Bounded(Lev("nix at end", "nix at en"), MaxDistance) == Finite(1)
  {
    EndSplits();
    OneEdit("add at end", "add at endx", "add at end", [], "x", []);
    OneEdit("diff at end", "diff at ene", "diff at en", "d", "e", []);
    OneEdit("nix at end", "nix at en", "nix at en", "d", [], []);
  }

  lemma EndSplits()
    ensures "add at end" == "add at end" + [] + [] && "add at endx" == "add at end" + "x" + []
    ensures "diff at end" == "diff at en" + "d" + [] && "diff at ene" == "diff at en" + "e" + []
    ensures "nix at end" == "nix at en" + "d" + [] && "nix at en" == "nix at en" + [] + []
  {
  }

  /** test.js:15-17: one unit added, changed or removed at the start. */
  lemma EditsAtStart()
    ensures AsWritten("add at start", "xadd at start", MaxDistance) == Finite(1)
    ensures AsWritten("diff at start", "eiff at start", MaxDistance) == Finite(1)
    ensures AsWritten("nix at start", "ix at start", MaxDistance) == Finite(1)
    ensures Bounded(Lev("add at start", "xadd at start"), MaxDistance) == Finite(1)
    ensures Bounded(Lev("diff at start", "eiff at start"), MaxDistance) == Finite(1)
    ensures Bounded(Lev("nix at start", "ix at start"), MaxDistance) == Finite(1)
  {
    StartSplits();
    OneEdit("add at start", "xadd at start", [], [], "x", "add at start");
    OneEdit("diff at start", "eiff at start", [], "d", "e", "iff at start");
    OneEdit("nix at start", "ix at start", [], "n", [], "ix at start");
  }

  lemma StartSplits()
    ensures "add at start" == [] + [] + "add at start" && "xadd at start" == [] + "x" + "add at start"
    ensures "diff at start" == [] + "d" + "iff at start" && "eiff at start" == [] + "e" + "iff at start"
    ensures "nix at start" == [] + "n" + "ix at start" && "ix at start" == [] + [] + "ix at start"
  {
  }

  /** test.js:18-20: one unit added, changed or removed in the middle. */
  lemma EditsInMiddle()
    ensures AsWritten("add in middle", "add xin middle", MaxDistance) == Finite(1)
    ensures AsWritten("diff in middle", "diff ix middle", MaxDistance) == Finite(1)
    ensures AsWritten("nix in middle", "nix n middle", MaxDistance) == Finite(1)
    ensures Bounded(Lev("add in middle", "add xin middle"), MaxDistance) == Finite(1)
    ensures Bounded(Lev("diff in middle", "diff ix middle"), MaxDistance) == Finite(1)
    ensures Bounded(Lev("nix in middle", "nix n middle"), MaxDistance) == Finite(1)
  {
    MiddleSplits();
    OneEdit("add in middle", "add xin middle", "add ", [], "x", "in middle");
    OneEdit("diff in middle", "diff ix middle", "diff i", "n", "x", " middle");
    OneEdit("nix in middle", "nix n middle", "nix ", "i", [], "n middle");
  }

  lemma MiddleSplits()
    ensures "add in middle" == "add " + [] + "in middle" && "add xin middle" == "add " + "x" + "in middle"
    ensures "diff in middle" == "diff i" + "n" + " middle" && "diff ix middle" == "diff i" + "x" + " middle"
    ensures "nix in middle" == "nix " + "i" + "n middle" && "nix n middle" == "nix " + [] + "n middle"
  {
  }

  /** test.js:21 and 24: against the empty string the distance is the other length. */
  lemma AgainstEmpty()
    ensures AsWritten("right empty", "", MaxDistance) == Finite(11)
    ensures AsWritten("", "left empty", MaxDistance) == Finite(10)
    ensures Bounded(Lev("right empty", ""), MaxDistance) == Finite(11)
    ensures Bounded(Lev("", "left empty"), MaxDistance) == Finite(10)
  {
    LevBounds("right empty", "");
    LevBounds("", "left empty");
    WithinBound("right empty", "", 11);
    WithinBound("", "left empty", 10);
  }

  /** test.js:22: lengths 26 apart are rejected before any table is built. */
  lemma TooFarApartInLength()
    ensures AsWritten("nix at end", "nix at end and we exceed MaxDistance", MaxDistance) == Exceeded
    ensures Bounded(Lev("nix at end", "nix at end and we exceed MaxDistance"), MaxDistance) == Exceeded
  {
    PreFilterSound("nix at end", "nix at end and we exceed MaxDistance", MaxDistance);
  }
}
